=== FILE: README.md ===
# cloud-init: partition growing and the Scaleway datasource, in Dafny

This project models two parts of cloud-init.

**`cc_growpart`** is the module that grows a root (or other) partition to fill its disk at boot. The model covers:

- how a back end is chosen (`growpart` or FreeBSD `gpart`, by name or by probing in `auto` mode);
- the command sequence and exit-code interpretation of each back end's `resize`;
- how a configured entry becomes a device (`devent2dev`) and a `(disk, partition number)` pair (`device_part_info`);
- the per-entry report of `resize_devices` (`SKIPPED`, `CHANGED`, `NOCHANGE`, `FAILED`), including which exceptions the loop catches and which escape it;
- the configuration gates of `handle`.

**The Scaleway datasource** covers:

- the addresses, token header and retry settings derived from the configuration;
- the user/vendor-data fetch (HTTP 404 means "not set", other errors are retried on the next privileged source port);
- the cached `network_config`;
- `get_public_ssh_keys`.

The operating system is modelled as a record of oracle functions (`GrowpartHost.System`). It covers:

- command outcomes;
- `os.stat`, `os.path.realpath`, `os.path.exists`, `os.path.isfile` and `util.load_file`;
- the mount table, the kernel command line and container detection;
- partition sizes before and after a resize.

Python exceptions that matter to the control flow are values of `PyValues.Exc`. The loop in `resize_devices` is modelled as a list of records plus, optionally, the exception that ended it. The loop uses the corrected `devent2dev` described under Findings. `DeviceInfo.Devent2DevAsWritten` keeps the code's behaviour beside it.

Files:

- `outcomes.dfy`: `Option`, `Result`, exceptions and Python scalar values.
- `text.dfy`: `str.rstrip`, `startswith`, `replace`, and `posixpath` `basename`/`dirname`/`join`.
- `growpart_resizers.dfy`: the host oracles, the two back ends and `resizer_factory`.
- `growpart_devices.dfy`: `device_part_info` and `devent2dev`.
- `growpart_batch.dfy`: `resize_devices`.
- `growpart_handle.dfy`: `handle`.
- `scaleway_keys.dfy`, `scaleway_network.dfy`, `scaleway_settings.dfy`, `scaleway_query.dfy`: the datasource.

A partition that reads back smaller after a resize is still reported `CHANGED`, because the code compares only for equality; `ResizeBatch.ShrinkIsReportedChanged` states this.

## Model

| member | source | states |
|---|---|---|
| `ResizerSelection.FirstAvailable` | cloudinit/config/cc_growpart.py:102-106 | the `auto` scan finds a back end exactly when some registry entry is available, and the one it finds is available and preceded only by unavailable entries |
| `ResizerSelection.ResizerFactory` | cloudinit/config/cc_growpart.py:99-126 | the chosen back end is always available. In `auto` mode a back end is chosen iff one is available, otherwise `ValueError`. A name outside the registry raises `TypeError`. A registered name yields exactly that back end when it is available and `ValueError` when it is not |
| `ResizerSelection.Lookup` | cloudinit/config/cc_growpart.py:112-119 | a name is found in the `mmap` built from the registry exactly when some registry entry carries it, and what is found is the back end of such an entry |
| `Resizers.Available` | cloudinit/config/cc_growpart.py:134-195 | `growpart` counts as available exactly when `growpart --help` succeeds and its output mentions `--update` followed by whitespace. `gpart` counts exactly when `gpart help` exits with 0 or 1 and its error output mentions `gpart recover `. A probe that raises never counts |
| `Resizers.UpdateOptionSearch` | cloudinit/config/cc_growpart.py:140 | the recursive search for `--update\s+` holds exactly when some position of the output reads `--update` followed by at least one whitespace character |
| `Resizers.GrowPartResize` | cloudinit/config/cc_growpart.py:147-180 | exactly two commands are issued, `growpart --dry-run` then `growpart`, when the dry run succeeds, and only the dry run otherwise. Dry-run exit code 1 reports equal sizes after the dry run alone. Any other dry-run failure is a failure of the dry run. After a successful dry run, the result is a failure exactly when the real `growpart` fails, and otherwise the sizes before and after. A failure names the last command issued and its unsuccessful completion |
| `Resizers.GpartResize` | cloudinit/config/cc_growpart.py:197-219 | exactly `gpart recover` then `gpart resize -i` are issued when the recovery succeeds, and only `gpart recover` otherwise. The result is a success exactly when both commands succeed, and then it reports the sizes before and after. A failure names the last command issued |
| `DeviceInfo.MatchPartSuffix` | cloudinit/config/cc_growpart.py:243-249 | a match splits the name into a `/dev/` disk, the separator and a single digit (with Python's `$` also accepting one trailing newline), the disk holds no newline |
| `DeviceInfo.MatchPartSuffixComplete` | cloudinit/config/cc_growpart.py:243-249 | conversely, every `/dev/<disk><sep><digit>` name, with or without one trailing newline, is matched and split back into its disk and digit |
| `DeviceInfo.DevicePartInfo` | cloudinit/config/cc_growpart.py:230-270 | on the BSDs the result is the pattern's split and a rejected name raises `AttributeError`. Elsewhere: a missing sysfs entry raises `ValueError`; a missing `partition` attribute raises `TypeError`; otherwise the partition number is the stripped `partition` attribute and the disk is the device node behind the parent's `dev` number |
| `DeviceInfo.DiskMajMin` | cloudinit/config/cc_growpart.py:262-265 | the disk's `major:minor` number is the `dev` attribute under the parent directory of the resolved sysfs entry, with exactly its trailing whitespace removed |
| `DeviceInfo.Devent2DevAsWritten` | cloudinit/config/cc_growpart.py:273-293 | `/dev/` entries pass through. An unknown mount raises `ValueError`. A mounted device is returned unless it is `/dev/root` outside a container, where the command-line root is returned, or `TypeError` raised when there is none |
| `DeviceInfo.Devent2Dev` | cloudinit/config/cc_growpart.py:273-293 | the corrected conversion fails only with `ValueError`, agrees with the code wherever the code succeeds, and with no command-line root returns `/dev/root` exactly when it exists |
| `ResizeBatch.AsWrittenRootLookupEscapesLoop` | cloudinit/config/cc_growpart.py:300-310 | the `TypeError` of the as-written conversion is not caught by the loop's `except ValueError`, while every failure of the corrected conversion is |
| `DeviceInfo.AsWrittenRootLookupRaisesTypeError` | cloudinit/config/cc_growpart.py:285-292 | with `/dev/root` mounted outside a container and no root on the command line, the code raises `TypeError`, which the corrected conversion never does |
| `ResizeBatch.ResolveEntry` | cloudinit/config/cc_growpart.py:300-345 | an entry resolves exactly when conversion, `stat`, the block/char-device test and `device_part_info` all succeed. An exception escapes exactly when one of them raises something its `except` clause does not name, which can only be a BSD `AttributeError`. Each skip carries the message of the step that stopped it: the conversion error (`unable to convert`), the path whose `stat` failed, the path that is not a device node, or the path with the `device_part_info` error |
| `ResizeBatch.ResizeEntry` | cloudinit/config/cc_growpart.py:300-376 | the record is about its own entry. `SKIPPED` exactly when resolution fails, and then no command is issued. `NOCHANGE` iff the sizes agree, `CHANGED` iff they differ (with both sizes), `FAILED` iff the back end failed. A `SKIPPED` record carries the resolution's message, `NOCHANGE` names the disk and partition, and `FAILED` names them with the back end's failure |
| `PyValues.NatToDecimal` | cloudinit/config/cc_growpart.py:117 | how `%s` renders a non-negative integer mode in the error message: decimal digits only, no leading zero, one digit exactly below ten, and the digits denote `n` |
| `ResizeBatch.Collect` | cloudinit/config/cc_growpart.py:298-378 | the records are those of the leading non-raising iterations, in order; the loop ends early exactly when an iteration raises, and that exception is the one reported |
| `ResizeBatch.CollectConcat` | cloudinit/config/cc_growpart.py:298-378 | running the loop over two lists, the first of which raises nothing, gives the first list's records followed by the second run |
| `ResizeBatch.ResizeDevices` | cloudinit/config/cc_growpart.py:296-378 | at most one record per entry, each the record of the entry at the same position. The batch is complete exactly when no entry raised; otherwise the next entry is the one that raised |
| `ResizeBatch.CompleteWhenNothingEscapes` | cloudinit/config/cc_growpart.py:296-378 | when no entry raises past the loop, the report is complete: one record per entry and no escaped exception |
| `ResizeBatch.BatchConcat` | cloudinit/config/cc_growpart.py:296-378 | the entries are handled independently: resizing `xs + ys`, when `xs` raises nothing, is resizing `xs` then `ys` |
| `ResizeBatch.ShrinkIsReportedChanged` | cloudinit/config/cc_growpart.py:348-365 | a resize whose size after is smaller than before is still reported as `CHANGED` with both sizes |
| `ResizeBatch.DryRunExitOneIsNoChange` | cloudinit/config/cc_growpart.py:159-172 | with `growpart`, a resolved entry whose dry run exits with 1 is reported `NOCHANGE`, and only the dry run is issued |
| `GrowpartHandle.Handle` | cloudinit/config/cc_growpart.py:381-432 | a non-mapping configuration stops the run. A false-ish mode, then the growroot marker (unless ignored), then an empty device list each stop it before any probe. A selection error propagates only outside `auto`. Otherwise every configured device is resized with exactly the back end `resizer_factory(mode)` returns, which is available |
| `GrowpartHandle.DefaultsResizeRoot` | cloudinit/config/cc_growpart.py:382-386 | without a `growpart` entry, `auto` mode resizes `/` with the first available back end |
| `Text.Rstrip` | cloudinit/config/cc_growpart.py:258 | the result is a prefix of the input, whatever was dropped is whitespace, and the result does not end in whitespace |
| `PosixPath.SplitJoin` | cloudinit/config/cc_growpart.py:254-263 | `dirname` and `basename` take apart what `os.path.join` of a directory and a slash-free name puts together |
| `ScalewayKeys.MatchingTags` | cloudinit/sources/DataSourceScaleway.py:302-304 | only tags starting with `AUTHORIZED_KEY=` are used, never more than there are tags |
| `ScalewayKeys.MatchingTagsMembers` | cloudinit/sources/DataSourceScaleway.py:302-304 | a tag is selected exactly when it is one of the tags and starts with `AUTHORIZED_KEY=` |
| `ScalewayKeys.MatchingTagsConcat` | cloudinit/sources/DataSourceScaleway.py:302-304 | the selection keeps tag order: selecting from `a + b` is the selection from `a` followed by the selection from `b` |
| `ScalewayKeys.UnprefixedTagsIgnored` | cloudinit/sources/DataSourceScaleway.py:302-304 | tags without the prefix contribute no key |
| `ScalewayKeys.CollectKeys` | cloudinit/sources/DataSourceScaleway.py:297-307 | the keys of `ssh_public_keys` in order, followed by one element per matching tag, in tag order |
| `ScalewayKeys.GetPublicSshKeys` | cloudinit/sources/DataSourceScaleway.py:297-307 | as written, each matching tag contributes the constant `AUTHORIZED KEY=` after the `ssh_public_keys` keys |
| `ScalewayKeys.AsWrittenTagKeyIsConstant` | cloudinit/sources/DataSourceScaleway.py:305 | `tag[:plen].replace("_", " ")` of any matching tag is `AUTHORIZED KEY=` |
| `ScalewayKeys.AsWrittenLosesTaggedKey` | cloudinit/sources/DataSourceScaleway.py:305 | the tag `AUTHORIZED_KEY=ssh-ed25519_AAAAC3` yields `AUTHORIZED KEY=` as written and `ssh-ed25519 AAAAC3` when sliced after the prefix |
| `ScalewayKeys.GetPublicSshKeysIntended` | cloudinit/sources/DataSourceScaleway.py:297-307 | corrected: each matching tag contributes the text after the prefix with `_` read as a space |
| `ScalewayKeys.TagKeyRoundTrip` | cloudinit/sources/DataSourceScaleway.py:305 | a key without underscores stored in a tag with its spaces written as `_` is recovered exactly by the corrected slice |
| `Text.ReplaceCharRoundTrip` | cloudinit/sources/DataSourceScaleway.py:305 | replacing `a` by `b` and back is the identity on text free of `b` |
| `ScalewayNetwork.BuildNetworkConfig` | cloudinit/sources/DataSourceScaleway.py:274-287 | version 1, one physical interface named after the fallback interface (`None` when unknown), DHCPv4 first. The static IPv6 subnet with the metadata's address, gateway and netmask is added exactly when `ipv6` is present and truthy |
| `ScalewayNetwork.ReadNetworkConfig` | cloudinit/sources/DataSourceScaleway.py:255-288 | a cached configuration is returned and nothing changes. Otherwise the fallback interface is looked up only when unknown, and the configuration built from that interface and the metadata's `ipv6` entry (with its address, gateway and netmask) is both returned and cached |
| `ScalewayNetwork.CachedConfigIsStable` | cloudinit/sources/DataSourceScaleway.py:268-269 | once read, the configuration is cached: a second read returns the first read's value and state, whatever the metadata and interfaces are then |
| `ScalewayNetwork.CachedNoneIsRecomputed` | cloudinit/sources/DataSourceScaleway.py:261-266 | a cached `None` is reset to `UNSET`, so it is read exactly like an unset cache |
| `ScalewaySettings.Address` | cloudinit/sources/DataSourceScaleway.py:195-197 | the `custom_*_url` wins when set; otherwise the base URL (default `http://169.254.42.42`) followed by the endpoint's path |
| `ScalewaySettings.DeriveSettings` | cloudinit/sources/DataSourceScaleway.py:185-208 | each of the three addresses is the `ScalewaySettings.Address` of its own `custom_*_url` and endpoint path. A token sets both the `X-Metadata-Auth-Token` header map and the redacted header name, and no token sets neither; retries and timeout default to 5 and 10 |
| `ScalewaySettings.AddressSplitsIntoBaseAndPath` | cloudinit/sources/DataSourceScaleway.py:195-197 | without custom URLs each address starts with the base URL and continues with exactly its endpoint path |
| `ScalewayQuery.QueryOnce` | cloudinit/sources/DataSourceScaleway.py:95-134 | contents are returned, HTTP 404 yields `None`, and every other error is raised unchanged |
| `ScalewayQuery.PortCount` | cloudinit/sources/DataSourceScaleway.py:148 | `range(1, max(retries, 2))` offers exactly one port below 2 retries, and `retries - 1` ports from 2 retries on |
| `ScalewayQuery.QueryDataApi` | cloudinit/sources/DataSourceScaleway.py:137-172 | source ports 1, 2, … are tried in order, at least one and at most the port count. Every attempt before the last raised. The result is the last attempt's. An error is raised only after every port was tried |

## Left out

- Running commands, the environment (`LANG=C`, `TMPDIR`), the temporary directory and `os.mkdir`: command outcomes come from the `run` oracle.
- `get_size`, `os.stat`, `os.path.realpath`, `os.path.exists`, `os.path.isfile` and `util.load_file`: these are oracles. The exceptions they could raise are not modelled, apart from a failed `stat`, which skips the entry.
- `util.find_freebsd_part`, `util.find_dragonflybsd_part`, `util.get_mount_info`, `util.rootdev_from_cmdline`, `util.is_container`, `util.is_FreeBSD` and `util.is_DragonFlyBSD`: these are oracle fields of `System`.
- `util.is_false` is a parameter of `Handle`.
- `ResizeBatch.ResizeDevices`: the host observations (`run`, `sizeBefore`, `sizeAfter` and the rest of `System`) do not change within one `resize_devices` call. A resize therefore does not change what later entries see: with devices `["/", "/"]` the code's second dry run would exit 1 and report `NOCHANGE`, while the model repeats the first entry's outcome.
- `util.get_cfg_option_list` is not modelled: the device list is already a list of strings.
- Storing `DEFAULT_CONFIG` into the caller's configuration is not modelled; only the values it supplies are.
- Logging, the deprecation warning for false-ish modes other than `off`, and `util.log_time` are not modelled.
- Report messages are structured `Detail` values rather than formatted strings. Exceptions carry the source's message text where it is fixed.
- `Text.IsSpace` covers the ASCII and Latin-1 whitespace characters only, not the rest of Unicode whitespace.
- `ResizeFailedException` is modelled as a `ResizeFailure` value naming the failed command and its completion.
- The BSD pattern's `AttributeError` on a rejected device name is kept as the code has it: an exception escaping `resize_devices`.
- `ScalewayQuery.QueryDataApi`: the `time.sleep(5)` between attempts, the session and `SourceAddressAdapter` port binding, the `exception_cb` passed to `readurl`, and `util.decode_binary` are not modelled. `attempt(port)` stands for the whole request made from that source port.
- `ScalewaySettings.DeriveSettings`: `int(...)` of a non-integer `retries` or `timeout` value is not modelled; both are taken as integers. `util.mergemanydict` is reduced to the merged fields it can affect, because none of the keys read here is set by `BUILTIN_DS_CONFIG`.
- The Scaleway metadata document is reduced to `ssh_public_keys`, `tags` and `ipv6`. Missing keys, which would raise `KeyError`, are not modelled.
- `get_first_connected_interface` is the `discovered` parameter of `ReadNetworkConfig`. Ephemeral DHCP, `_crawl_metadata`, `_get_data`, `on_scaleway` and the other properties of the datasource are not modelled.

## Findings

| source | as written | input that shows it | evidently intended | confidence | as-written member | corrected member |
|---|---|---|---|---|---|---|
| cloudinit/sources/DataSourceScaleway.py:305 | `tag[:plen]` keeps the `AUTHORIZED_KEY=` prefix and drops the key, so every tagged key becomes `AUTHORIZED KEY=` | tag `AUTHORIZED_KEY=ssh-ed25519_AAAAC3` | `tag[plen:]`, the key after the prefix (`ssh-ed25519 AAAAC3`) | high, not executed | `ScalewayKeys.GetPublicSshKeys` (see `ScalewayKeys.AsWrittenLosesTaggedKey`) | `ScalewayKeys.GetPublicSshKeysIntended` (see `ScalewayKeys.TagKeyRoundTrip`) |
| cloudinit/config/cc_growpart.py:285-292 | once `rootdev_from_cmdline` returns `None`, `os.path.exists(dev)` is called on `None` and raises `TypeError`. The `resize_devices` loop does not catch it, so the whole run aborts | `/` mounted from `/dev/root`, not in a container, no `root=` on the kernel command line | test `os.path.exists("/dev/root")`: return `/dev/root` when it exists, else raise the `ValueError`, which skips the entry | high, not executed | `DeviceInfo.Devent2DevAsWritten` (see `DeviceInfo.AsWrittenRootLookupRaisesTypeError` and `ResizeBatch.AsWrittenRootLookupEscapesLoop`) | `DeviceInfo.Devent2Dev`, used by `ResizeBatch.ResolveEntry` |

=== FILE: growpart_batch.dfy ===
/** `resize_devices`: one report record per configured entry, in order. */
module ResizeBatch {
  import opened PyValues
  import opened GrowpartHost
  import opened Resizers
  import opened Text
  import opened DeviceInfo

  /** The `RESIZE` outcome tags. */
  datatype Action = Skipped | Changed | NoChange | Failed {
    function Name(): string {
      match this
      case Skipped => "SKIPPED"
      case Changed => "CHANGED"
      case NoChange => "NOCHANGE"
      case Failed => "FAILED"
    }
  }

  /** The information each report message carries. */
  datatype Detail =
    | UnableToConvert(cause: Exc)
    | StatFailed(blockdev: string)
    | NotBlockDevice(blockdev: string)
    | PartInfoFailed(blockdev: string, cause: Exc)
    | NoChangeNecessary(disk: string, ptnum: string)
    | ChangedFromTo(disk: string, ptnum: string, before: nat, after: nat)
    | FailedToResize(disk: string, ptnum: string, failure: ResizeFailure)

  /** `(entry-in-devices, action, message)` */
  datatype Record = Record(entry: string, action: Action, detail: Detail)

  /** What resolving an entry leads to: a partition to resize, a reason to skip the
      entry, or an exception no `except` clause of the loop catches. */
  datatype Resolution =
    | Resolved(blockdev: string, disk: string, ptnum: string)
    | Unresolved(detail: Detail)
    | Uncaught(exc: Exc)

  /** The loop's `except ValueError` around `devent2dev`. */
  predicate CaughtFromConversion(e: Exc) {
    e.ValueError?
  }

  /** The loop's `except (TypeError, ValueError)` around `device_part_info`. */
  predicate CaughtFromPartInfo(e: Exc) {
    e.TypeError? || e.ValueError?
  }

  predicate IsDeviceNode(k: FileKind) {
    k == BlockDevice || k == CharDevice
  }

  /** Resolution steps of one entry: `devent2dev`, `os.stat`, the block/char-device
      test and `device_part_info`, each of whose caught failures skips the entry. */
  function ResolveEntry(devent: string, sys: System): (res: Resolution)
    ensures res.Resolved? <==>
      && Devent2Dev(devent, sys).Ok?
      && sys.stat(Devent2Dev(devent, sys).value).Some?
      && IsDeviceNode(sys.stat(Devent2Dev(devent, sys).value).value)
      && DevicePartInfo(Devent2Dev(devent, sys).value, sys).Ok?
    ensures res.Resolved? ==>
      && Devent2Dev(devent, sys) == Ok(res.blockdev)
      && DevicePartInfo(res.blockdev, sys) == Ok((res.disk, res.ptnum))
    ensures res.Uncaught? <==>
      || (Devent2Dev(devent, sys).Err? && !CaughtFromConversion(Devent2Dev(devent, sys).error))
      || (&& Devent2Dev(devent, sys).Ok?
          && sys.stat(Devent2Dev(devent, sys).value).Some?
          && IsDeviceNode(sys.stat(Devent2Dev(devent, sys).value).value)
          && DevicePartInfo(Devent2Dev(devent, sys).value, sys).Err?
          && !CaughtFromPartInfo(DevicePartInfo(Devent2Dev(devent, sys).value, sys).error))
    ensures res.Uncaught? ==> res.exc.AttributeError? && sys.platform != SysfsPlatform
    ensures var conv := Devent2Dev(devent, sys);
      conv.Err? && CaughtFromConversion(conv.error) ==> res == Unresolved(UnableToConvert(conv.error))
    ensures var conv := Devent2Dev(devent, sys);
      conv.Ok? && sys.stat(conv.value).None? ==> res == Unresolved(StatFailed(conv.value))
    ensures var conv := Devent2Dev(devent, sys);
      (conv.Ok? && sys.stat(conv.value).Some? && !IsDeviceNode(sys.stat(conv.value).value))
        ==> res == Unresolved(NotBlockDevice(conv.value))
    ensures var conv := Devent2Dev(devent, sys);
      (&& conv.Ok? && sys.stat(conv.value).Some? && IsDeviceNode(sys.stat(conv.value).value)
       && DevicePartInfo(conv.value, sys).Err? && CaughtFromPartInfo(DevicePartInfo(conv.value, sys).error))
        ==> res == Unresolved(PartInfoFailed(conv.value, DevicePartInfo(conv.value, sys).error))
  {
    match Devent2Dev(devent, sys)
    case Err(e) => if CaughtFromConversion(e) then Unresolved(UnableToConvert(e)) else Uncaught(e)
    case Ok(blockdev) =>
      match sys.stat(blockdev)
      case None => Unresolved(StatFailed(blockdev))
      case Some(kind) =>
        if !IsDeviceNode(kind) then Unresolved(NotBlockDevice(blockdev))
        else
          match DevicePartInfo(blockdev, sys)
          case Err(e) => if CaughtFromPartInfo(e) then Unresolved(PartInfoFailed(blockdev, e)) else Uncaught(e)
          case Ok((disk, ptnum)) => Resolved(blockdev, disk, ptnum)
  }

  /** The effect of one loop iteration: a record and the commands the resize issued,
      or an exception that leaves the loop. */
  datatype Step = Emit(record: Record, issued: seq<Cmd>) | Escape(exc: Exc)

  /** One iteration of the loop in `resize_devices`. A skipped entry issues no
      command; a resolved one is resized, and the outcome is NOCHANGE exactly when
      the sizes before and after agree, CHANGED when they differ and FAILED when the
      back end failed. */
  function ResizeEntry(resizer: Resizer, sys: System, devent: string): (st: Step)
    ensures st.Escape? <==> ResolveEntry(devent, sys).Uncaught?
    ensures st.Emit? ==> st.record.entry == devent
    ensures st.Emit? ==> (st.record.action == Skipped <==> ResolveEntry(devent, sys).Unresolved?)
    ensures st.Emit? && st.record.action == Skipped ==> st.issued == []
    ensures st.Emit? && st.record.action == Skipped ==> st.record.detail == ResolveEntry(devent, sys).detail
    ensures ResolveEntry(devent, sys).Resolved? ==>
      var res := ResolveEntry(devent, sys);
      var run := Resize(resizer, sys, res.disk, res.ptnum, res.blockdev);
      && st.Emit? && st.issued == run.issued
      && (st.record.action == NoChange <==> run.result.Ok? && run.result.value.0 == run.result.value.1)
      && (st.record.action == Changed <==> run.result.Ok? && run.result.value.0 != run.result.value.1)
      && (st.record.action == Failed <==> run.result.Err?)
      && (st.record.action == Changed ==>
            st.record.detail == ChangedFromTo(res.disk, res.ptnum, run.result.value.0, run.result.value.1))
      && (st.record.action == NoChange ==> st.record.detail == NoChangeNecessary(res.disk, res.ptnum))
      && (st.record.action == Failed ==> st.record.detail == FailedToResize(res.disk, res.ptnum, run.result.error))
  {
    match ResolveEntry(devent, sys)
    case Uncaught(e) => Escape(e)
    case Unresolved(detail) => Emit(Record(devent, Skipped, detail), [])
    case Resolved(blockdev, disk, ptnum) =>
      var run := Resize(resizer, sys, disk, ptnum, blockdev);
      match run.result
      case Err(failure) => Emit(Record(devent, Failed, FailedToResize(disk, ptnum, failure)), run.issued)
      case Ok((before, after)) =>
        if before == after then Emit(Record(devent, NoChange, NoChangeNecessary(disk, ptnum)), run.issued)
        else Emit(Record(devent, Changed, ChangedFromTo(disk, ptnum, before, after)), run.issued)
  }

  /** The list `resize_devices` returns, and the exception that ended the loop early,
      if any. */
  datatype Batch = Batch(records: seq<Record>, escaped: Option<Exc>)

  /** Accumulates the loop's effects in order: the record of every emitting step,
      up to the first step that raises past the loop. */
  function Collect(steps: seq<Step>): (b: Batch)
    ensures |b.records| <= |steps|
    ensures forall i {:trigger b.records[i]} :: 0 <= i < |b.records| ==> steps[i].Emit? && steps[i].record == b.records[i]
    ensures b.escaped.None? <==> |b.records| == |steps|
    ensures b.escaped.Some? ==> steps[|b.records|] == Escape(b.escaped.value)
  {
    if |steps| == 0 then Batch([], None)
    else
      match steps[0]
      case Escape(e) => Batch([], Some(e))
      case Emit(record, _) =>
        var rest := Collect(steps[1..]);
        var b := Batch([record] + rest.records, rest.escaped);
        assert forall i :: 0 < i < |steps| ==> steps[i] == steps[1..][i - 1];
        forall i | 0 <= i < |b.records|
          ensures steps[i].Emit? && steps[i].record == b.records[i]
        {
          if i > 0 {
            assert b.records[i] == rest.records[i - 1];
          }
        }
        b
  }

  /** A prefix that raises nothing contributes its records and nothing else. */
  lemma {:induction false} CollectConcat(s1: seq<Step>, s2: seq<Step>)
    requires forall i :: 0 <= i < |s1| ==> s1[i].Emit?
    ensures Collect(s1 + s2) == Batch(Collect(s1).records + Collect(s2).records, Collect(s2).escaped)
    decreases |s1|
  {
    if |s1| == 0 {
      assert s1 + s2 == s2;
    } else {
      var zs := s1 + s2;
      assert zs[0] == s1[0] && zs[1..] == s1[1..] + s2;
      CollectCons(s1);
      CollectCons(zs);
      CollectConcat(s1[1..], s2);
      assert [s1[0].record] + (Collect(s1[1..]).records + Collect(s2).records)
          == ([s1[0].record] + Collect(s1[1..]).records) + Collect(s2).records;
    }
  }

  lemma CollectCons(steps: seq<Step>)
    requires |steps| > 0 && steps[0].Emit?
    ensures Collect(steps) == Batch([steps[0].record] + Collect(steps[1..]).records, Collect(steps[1..]).escaped)
  {
  }

  /** The iterations of the loop, one per entry. Steps are pure, so computing the
      steps after one that raises has no effect: `Collect` ignores them. */
  function EntrySteps(resizer: Resizer, sys: System, entries: seq<string>): (steps: seq<Step>)
    ensures |steps| == |entries|
    ensures forall i :: 0 <= i < |entries| ==> steps[i] == ResizeEntry(resizer, sys, entries[i])
  {
    seq(|entries|, i requires 0 <= i < |entries| => ResizeEntry(resizer, sys, entries[i]))
  }

  /** `resize_devices(resizer, devices)`: every entry is processed in input order and
      yields exactly one record whose first component is that entry; a skipped or
      failed entry does not stop the later ones. Only an exception the loop does not
      catch ends it, and then the records of the entries before are all there is. */
  function ResizeDevices(resizer: Resizer, sys: System, entries: seq<string>): (b: Batch)
    ensures |b.records| <= |entries|
    ensures forall i :: 0 <= i < |b.records| ==>
      ResizeEntry(resizer, sys, entries[i]).Emit? && ResizeEntry(resizer, sys, entries[i]).record == b.records[i]
    ensures forall i :: 0 <= i < |b.records| ==> b.records[i].entry == entries[i]
    ensures b.escaped.None? <==> |b.records| == |entries|
    ensures b.escaped.Some? ==> ResizeEntry(resizer, sys, entries[|b.records|]) == Escape(b.escaped.value)
  {
    var steps := EntrySteps(resizer, sys, entries);
    var b := Collect(steps);
    forall i | 0 <= i < |b.records|
      ensures steps[i].Emit? && steps[i].record == b.records[i]
    {
      assert b.records[i] in b.records;
    }
    b
  }

  /** The `TypeError` the code raises for an unconverted `/dev/root` is not one the
      loop's `except ValueError` catches, so it would end `resize_devices`. */
  lemma AsWrittenRootLookupEscapesLoop(devent: string, sys: System)
    requires !StartsWith(devent, "/dev/") && sys.mountDevice(devent) == Some(RootPlaceholder)
    requires !sys.isContainer && sys.rootFromCmdline.None?
    ensures Devent2DevAsWritten(devent, sys).Err?
    ensures !CaughtFromConversion(Devent2DevAsWritten(devent, sys).error)
    ensures Devent2Dev(devent, sys).Err? ==> CaughtFromConversion(Devent2Dev(devent, sys).error)
  {
    AsWrittenRootLookupRaisesTypeError(devent, sys);
  }

  /** When no entry raises past the loop, the report has one record per entry. */
  lemma CompleteWhenNothingEscapes(resizer: Resizer, sys: System, entries: seq<string>)
    requires forall i :: 0 <= i < |entries| ==> !ResolveEntry(entries[i], sys).Uncaught?
    ensures ResizeDevices(resizer, sys, entries).escaped.None?
    ensures |ResizeDevices(resizer, sys, entries).records| == |entries|
  {
  }

  /** Entries are processed independently: the report for `xs + ys` is the report for
      `xs` followed by the report for `ys`, provided nothing escaped while processing
      `xs`. */
  lemma BatchConcat(resizer: Resizer, sys: System, xs: seq<string>, ys: seq<string>)
    requires ResizeDevices(resizer, sys, xs).escaped.None?
    ensures ResizeDevices(resizer, sys, xs + ys)
         == Batch(ResizeDevices(resizer, sys, xs).records + ResizeDevices(resizer, sys, ys).records,
                  ResizeDevices(resizer, sys, ys).escaped)
  {
    var s1 := EntrySteps(resizer, sys, xs);
    var s2 := EntrySteps(resizer, sys, ys);
    assert EntrySteps(resizer, sys, xs + ys) == s1 + s2;
    CollectConcat(s1, s2);
  }

  /** A growpart dry run that exits with 1 reports NOCHANGE and issues no grow
      command. */
  lemma DryRunExitOneIsNoChange(sys: System, devent: string)
    requires ResolveEntry(devent, sys).Resolved?
    requires ExitedWith(sys.run(DryRunCmd(ResolveEntry(devent, sys).disk, ResolveEntry(devent, sys).ptnum)), 1)
    ensures ResizeEntry(GrowPart, sys, devent).Emit?
    ensures ResizeEntry(GrowPart, sys, devent).record.action == NoChange
    ensures ResizeEntry(GrowPart, sys, devent).issued
         == [DryRunCmd(ResolveEntry(devent, sys).disk, ResolveEntry(devent, sys).ptnum)]
  {
  }

  /** The report does not check that a partition grew: a resize that succeeds but
      reads back a smaller size is reported CHANGED. */
  lemma ShrinkIsReportedChanged(resizer: Resizer, sys: System, devent: string)
    requires ResolveEntry(devent, sys).Resolved?
    requires var res := ResolveEntry(devent, sys);
      && Succeeded(sys.run(Resize(resizer, sys, res.disk, res.ptnum, res.blockdev).issued[0]))
      && (forall c :: c in Resize(resizer, sys, res.disk, res.ptnum, res.blockdev).issued ==> Succeeded(sys.run(c)))
      && sys.sizeAfter(res.blockdev) < sys.sizeBefore(res.blockdev)
    ensures ResizeEntry(resizer, sys, devent).record.action == Changed
  {
    var res := ResolveEntry(devent, sys);
    var run := Resize(resizer, sys, res.disk, res.ptnum, res.blockdev);
    if resizer == GrowPart {
      assert GrowCmd(res.disk, res.ptnum) in run.issued;
    } else {
      assert GpartResizeCmd(res.disk, res.ptnum) in run.issued;
    }
  }
}

=== FILE: growpart_devices.dfy ===
/** Turning a configured entry into a block device (`devent2dev`) and a block device
    into its parent disk and partition number (`device_part_info`). */
module DeviceInfo {
  import opened PyValues
  import opened Text
  import opened PosixPath
  import opened GrowpartHost

  predicate IsDigit(c: char) {
    '0' <= c <= '9'
  }

  /** The string the `$` anchor of a Python regex sees as the end: `s` without one
      trailing newline, since `$` also matches just before a final `\n`. */
  function AnchorBody(s: string): (t: string)
    ensures t == s || t + "\n" == s
  {
    if |s| > 0 && s[|s| - 1] == '\n' then s[..|s| - 1] else s
  }

  /** `re.search("^(/dev/.+)" + sep + "([0-9])$", s)` and its two groups. The `.`
      class excludes newlines, so group 1 holds none. */
  function MatchPartSuffix(s: string, sep: char): (m: Option<(string, string)>)
    ensures m.Some? ==> var (disk, idx) := m.value;
      && (disk + [sep] + idx == s || disk + [sep] + idx + "\n" == s)
      && |idx| == 1 && IsDigit(idx[0])
      && StartsWith(disk, "/dev/") && |disk| > 5
      && forall k :: 0 <= k < |disk| ==> disk[k] != '\n'
  {
    var t := AnchorBody(s);
    if |t| >= 8 && StartsWith(t, "/dev/") && t[|t| - 2] == sep && IsDigit(t[|t| - 1])
       && forall k :: 5 <= k < |t| - 2 ==> t[k] != '\n'
    then
      var disk := t[..|t| - 2];
      assert disk[..5] == t[..5];
      assert disk + [sep] + [t[|t| - 1]] == t;
      Some((disk, [t[|t| - 1]]))
    else None
  }

  /** Every name of the shape the pattern describes is matched and split back into
      its parts. */
  lemma MatchPartSuffixComplete(disk: string, sep: char, d: char)
    requires StartsWith(disk, "/dev/") && |disk| > 5
    requires forall k :: 0 <= k < |disk| ==> disk[k] != '\n'
    requires IsDigit(d)
    ensures MatchPartSuffix(disk + [sep] + [d], sep) == Some((disk, [d]))
    ensures MatchPartSuffix(disk + [sep] + [d] + "\n", sep) == Some((disk, [d]))
  {
    var s := disk + [sep] + [d];
    assert AnchorBody(s) == s;
    assert (s + "\n")[..|s + "\n"| - 1] == s;
    assert AnchorBody(s + "\n") == s;
    assert s[..5] == disk[..5];
    assert s[..|s| - 2] == disk;
    assert forall k :: 5 <= k < |s| - 2 ==> s[k] == disk[k];
  }

  /** The separator between disk and partition number in BSD device names. */
  function BsdSeparator(p: Platform): char
    requires p != SysfsPlatform
  {
    if p == FreeBSD then 'p' else 's'
  }

  /** `"/sys/class/block/%s" % os.path.basename(os.path.realpath(devpath))` */
  function SysPath(devpath: string, sys: System): string {
    "/sys/class/block/" + Basename(sys.realpath(devpath))
  }

  const NoneHasNoGroup := "'NoneType' object has no attribute 'group'"

  /** `device_part_info(devpath)`: `(disk, partition number)`. On the BSDs the name
      reported for the device is split by the naming-convention pattern, and a name
      the pattern rejects makes `m.group` fail with `AttributeError`. Elsewhere sysfs
      decides: no class entry raises `ValueError`, no `partition` attribute raises
      `TypeError`, otherwise the partition number is read from sysfs and the disk is
      the device node behind the parent directory's major:minor number. */
  function DevicePartInfo(devpath: string, sys: System): (r: Result<(string, string), Exc>)
    ensures sys.platform != SysfsPlatform ==>
      var name := "/dev/" + sys.bsdPartName(devpath);
      var sep := BsdSeparator(sys.platform);
      && (r.Ok? ==> (r.value.0 + [sep] + r.value.1 == name || r.value.0 + [sep] + r.value.1 + "\n" == name)
                    && |r.value.1| == 1 && IsDigit(r.value.1[0]))
      && (r.Err? <==> MatchPartSuffix(name, sep).None?)
      && (r.Err? ==> r.error.AttributeError?)
    ensures sys.platform == SysfsPlatform ==>
      && (r.Err? && r.error.ValueError? <==> !sys.pathExists(SysPath(devpath, sys)))
      && (r.Err? && r.error.TypeError? <==>
            sys.pathExists(SysPath(devpath, sys)) && !sys.pathExists(Join(SysPath(devpath, sys), "partition")))
      && (r.Err? ==> r.error.ValueError? || r.error.TypeError?)
      && (r.Ok? ==> r.value.1 == Rstrip(sys.loadFile(Join(SysPath(devpath, sys), "partition")))
                    && r.value.0 == sys.realpath("/dev/block/" + DiskMajMin(devpath, sys)))
  {
    if sys.platform != SysfsPlatform then
      var name := "/dev/" + sys.bsdPartName(devpath);
      match MatchPartSuffix(name, BsdSeparator(sys.platform))
      case None => Err(AttributeError(NoneHasNoGroup))
      case Some(groups) => Ok(groups)
    else
      var syspath := SysPath(devpath, sys);
      if !sys.pathExists(syspath) then
        Err(ValueError(devpath + " had no syspath (" + syspath + ")"))
      else
        var ptpath := Join(syspath, "partition");
        if !sys.pathExists(ptpath) then
          Err(TypeError(devpath + " not a partition"))
        else
          var ptnum := Rstrip(sys.loadFile(ptpath));
          var disksyspath := Dirname(sys.realpath(syspath));
          var diskmajmin := Rstrip(sys.loadFile(Join(disksyspath, "dev")));
          Ok((sys.realpath("/dev/block/" + diskmajmin), ptnum))
  }

  /** The `major:minor` number of the disk holding the partition: the `dev`
      attribute of the parent directory of the partition's resolved sysfs entry. */
  function DiskMajMin(devpath: string, sys: System): (m: string)
    ensures var raw := sys.loadFile(Join(Dirname(sys.realpath(SysPath(devpath, sys))), "dev"));
      && |m| <= |raw| && m == raw[..|m|]
      && (forall i :: |m| <= i < |raw| ==> IsSpace(raw[i]))
      && (|m| > 0 ==> !IsSpace(m[|m| - 1]))
  {
    Rstrip(sys.loadFile(Join(Dirname(sys.realpath(SysPath(devpath, sys))), "dev")))
  }

  const RootPlaceholder := "/dev/root"

  /** `ValueError` text of a failed mount lookup; the source puts the `%` operator
      inside the string literal, so the entry never appears in it. */
  const MountLookupFailed := "Could not determine device of '%s' % dev_ent"

  /** Raised by `os.path.exists(None)`. */
  const ExistsOfNone := "stat: path should be string, bytes, os.PathLike or integer, not NoneType"

  const RootNotFound := "Unable to find device '/dev/root'"

  /** `devent2dev(devent)` as written: an entry under `/dev/` is already a device;
      otherwise the mount table names the device, and outside a container the
      `/dev/root` placeholder is replaced by the root device named on the kernel
      command line. When the command line names none, the code calls
      `os.path.exists(dev)` on `dev`, which is `None` by then, and that raises
      `TypeError`. */
  function Devent2DevAsWritten(devent: string, sys: System): (r: Result<string, Exc>)
    ensures StartsWith(devent, "/dev/") ==> r == Ok(devent)
    ensures !StartsWith(devent, "/dev/") ==>
      && (sys.mountDevice(devent).None? ==> r == Err(ValueError(MountLookupFailed)))
      && ((sys.mountDevice(devent).Some? && (sys.mountDevice(devent).value != RootPlaceholder || sys.isContainer))
            ==> r == Ok(sys.mountDevice(devent).value))
      && (sys.mountDevice(devent) == Some(RootPlaceholder) && !sys.isContainer ==>
            && (sys.rootFromCmdline.Some? ==> r == Ok(sys.rootFromCmdline.value))
            && (sys.rootFromCmdline.None? ==> r.Err? && r.error.TypeError?))
  {
    if StartsWith(devent, "/dev/") then Ok(devent)
    else
      match sys.mountDevice(devent)
      case None => Err(ValueError(MountLookupFailed))
      case Some(dev) =>
        if dev == RootPlaceholder && !sys.isContainer then
          match sys.rootFromCmdline
          case Some(root) => Ok(root)
          case None => Err(TypeError(ExistsOfNone))
        else Ok(dev)
  }

  /** `devent2dev(devent)` as its comment describes it: when the kernel command line
      names no root device, `/dev/root` itself is returned if it exists, and
      otherwise `ValueError` is raised. It fails only with `ValueError`, and it
      agrees with the code everywhere else. */
  function Devent2Dev(devent: string, sys: System): (r: Result<string, Exc>)
    ensures r.Err? ==> r.error.ValueError?
    ensures r.Ok? ==> StartsWith(devent, "/dev/") || sys.mountDevice(devent).Some?
    ensures Devent2DevAsWritten(devent, sys).Ok? ==> r == Devent2DevAsWritten(devent, sys)
    ensures !StartsWith(devent, "/dev/") && sys.mountDevice(devent) == Some(RootPlaceholder)
            && !sys.isContainer && sys.rootFromCmdline.None? ==>
      (r == Ok(RootPlaceholder) <==> sys.pathExists(RootPlaceholder))
      && (r == Err(ValueError(RootNotFound)) <==> !sys.pathExists(RootPlaceholder))
  {
    if StartsWith(devent, "/dev/") then Ok(devent)
    else
      match sys.mountDevice(devent)
      case None => Err(ValueError(MountLookupFailed))
      case Some(dev) =>
        if dev == RootPlaceholder && !sys.isContainer then
          match sys.rootFromCmdline
          case Some(root) => Ok(root)
          case None => if sys.pathExists(RootPlaceholder) then Ok(RootPlaceholder) else Err(ValueError(RootNotFound))
        else Ok(dev)
  }

  /** The two conversions differ only when `/dev/root` is mounted outside a
      container and the kernel command line names no root device: there the code
      raises `TypeError`, and the intended conversion returns `/dev/root` or raises
      `ValueError`. */
  lemma AsWrittenRootLookupRaisesTypeError(devent: string, sys: System)
    requires !StartsWith(devent, "/dev/") && sys.mountDevice(devent) == Some(RootPlaceholder)
    requires !sys.isContainer && sys.rootFromCmdline.None?
    ensures Devent2DevAsWritten(devent, sys).Err? && Devent2DevAsWritten(devent, sys).error.TypeError?
    ensures Devent2Dev(devent, sys).Ok? || Devent2Dev(devent, sys).error.ValueError?
  {
  }

  lemma ConversionsAgreeElsewhere(devent: string, sys: System)
    requires StartsWith(devent, "/dev/") || sys.mountDevice(devent) != Some(RootPlaceholder)
             || sys.isContainer || sys.rootFromCmdline.Some?
    ensures Devent2Dev(devent, sys) == Devent2DevAsWritten(devent, sys)
  {
  }
}

=== FILE: growpart_handle.dfy ===
/** `handle`: the configuration gates in front of `resize_devices`. */
module GrowpartHandle {
  import opened PyValues
  import opened GrowpartHost
  import opened Resizers
  import opened ResizerSelection
  import opened ResizeBatch

  /** The `growpart` configuration entry: something other than a mapping, or a
      mapping whose keys may each be absent. */
  datatype GrowpartConfig =
    | NotAMapping
    | Mapping(mode: Option<Value>, devices: Option<seq<string>>, ignoreGrowrootDisabled: Option<Value>)

  /** `DEFAULT_CONFIG`, used when the configuration has no `growpart` entry. */
  const DefaultConfig := Mapping(Some(PyStr("auto")), Some(["/"]), Some(PyBool(false)))

  const GrowrootDisabledFile := "/etc/growroot-disabled"

  /** How `handle` ends. */
  datatype HandleOutcome =
    | ConfigNotAMapping
    | ModeDisabled
    | GrowrootDisabled
    | EmptyDeviceList
    | NoResizerInAutoMode(cause: Exc)
    | SelectionRaised(cause: Exc)
    | Resized(resizer: Resizer, batch: Batch)

  /** `handle`: a false-ish mode, the `/etc/growroot-disabled` marker (unless it is
      to be ignored) and an empty device list each end the run before any back end
      is probed; a selection error ends it silently in `auto` mode and propagates in
      any other mode; otherwise every configured device is resized with the selected
      back end. `isFalse` stands for `util.is_false`. */
  function Handle(cfg: Option<GrowpartConfig>, isFalse: Value -> bool, sys: System): (h: HandleOutcome)
    ensures h == ConfigNotAMapping <==> cfg.GetOr(DefaultConfig).NotAMapping?
    ensures cfg.GetOr(DefaultConfig).Mapping? ==>
      var c := cfg.GetOr(DefaultConfig);
      var mode := ModeOf(cfg);
      var markerStops := isFalse(c.ignoreGrowrootDisabled.GetOr(PyBool(false))) && sys.isFile(GrowrootDisabledFile);
      var gatesPass := !isFalse(mode) && !markerStops && |c.devices.GetOr(["/"])| > 0;
      && (h == ModeDisabled <==> isFalse(mode))
      && (h == GrowrootDisabled <==> !isFalse(mode) && markerStops)
      && (h.Resized? <==> gatesPass && ResizerFactory(mode, r => Available(r, sys)).Ok?)
      && (h.SelectionRaised? <==> gatesPass && ResizerFactory(mode, r => Available(r, sys)).Err? && mode != Auto)
      && (h.NoResizerInAutoMode? <==> gatesPass && ResizerFactory(mode, r => Available(r, sys)).Err? && mode == Auto)
      && (h.Resized? ==> h.batch == ResizeDevices(h.resizer, sys, c.devices.GetOr(["/"])))
    ensures h.Resized? ==> Available(h.resizer, sys)
    ensures h.Resized? ==> cfg.GetOr(DefaultConfig).Mapping?
                           && ResizerFactory(ModeOf(cfg), r => Available(r, sys)) == Ok(h.resizer)
  {
    var mycfg := cfg.GetOr(DefaultConfig);
    match mycfg
    case NotAMapping => ConfigNotAMapping
    case Mapping(_, _, _) =>
      var mode := mycfg.mode.GetOr(Auto);
      if isFalse(mode) then ModeDisabled
      else if isFalse(mycfg.ignoreGrowrootDisabled.GetOr(PyBool(false))) && sys.isFile(GrowrootDisabledFile) then
        GrowrootDisabled
      else
        var devices := mycfg.devices.GetOr(["/"]);
        if |devices| == 0 then EmptyDeviceList
        else
          match ResizerFactory(mode, r => Available(r, sys))
          case Err(e) => if mode != Auto then SelectionRaised(e) else NoResizerInAutoMode(e)
          case Ok(resizer) => Resized(resizer, ResizeDevices(resizer, sys, devices))
  }

  /** The configured mode, `auto` when the key is absent. */
  function ModeOf(cfg: Option<GrowpartConfig>): Value
    requires cfg.GetOr(DefaultConfig).Mapping?
  {
    cfg.GetOr(DefaultConfig).mode.GetOr(Auto)
  }

  /** Without a `growpart` entry the defaults apply: `auto` mode on `/`. */
  lemma DefaultsResizeRoot(isFalse: Value -> bool, sys: System)
    requires !isFalse(Auto) && isFalse(PyBool(false)) && !sys.isFile(GrowrootDisabledFile)
    requires AnyAvailable(Registry, r => Available(r, sys))
    ensures Handle(None, isFalse, sys).Resized?
    ensures Handle(None, isFalse, sys).batch == ResizeDevices(Handle(None, isFalse, sys).resizer, sys, ["/"])
    ensures IsFirstAvailable(Registry, r => Available(r, sys), Handle(None, isFalse, sys).resizer)
  {
  }
}

=== FILE: growpart_resizers.dfy ===
/** What the growpart module observes of its host. Every operating-system effect
    (subprocesses, `stat`, `realpath`, sysfs reads, the mount table, partition
    sizes) is a field of `System`, so that the decision logic is a pure function
    of these observations. */
module GrowpartHost {
  import opened PyValues

  /** An argument vector handed to `subp.subp`. */
  type Cmd = seq<string>

  /** How a subprocess ended: its exit code and captured output, or
      `NotExecuted` when it could not be started at all. */
  datatype Completion = Exited(code: int, out: string, err: string) | NotExecuted

  /** The file-type bits of `os.stat(...).st_mode` that matter here. */
  datatype FileKind = BlockDevice | CharDevice | OtherFile

  /** The host platform as `util.is_FreeBSD` / `util.is_DragonFlyBSD` report it;
      every other platform takes the sysfs route. */
  datatype Platform = FreeBSD | DragonFlyBSD | SysfsPlatform

  datatype System = System(
    platform: Platform,
    /** `util.is_container()` */
    isContainer: bool,
    /** `util.rootdev_from_cmdline(util.get_cmdline())` */
    rootFromCmdline: Option<string>,
    /** first component of `util.get_mount_info(path)`, `None` when it is falsy */
    mountDevice: string -> Option<string>,
    /** `os.stat(path)`, `None` when it raises `OSError` */
    stat: string -> Option<FileKind>,
    /** `os.path.realpath` */
    realpath: string -> string,
    /** `os.path.exists` */
    pathExists: string -> bool,
    /** `os.path.isfile` */
    isFile: string -> bool,
    /** `util.load_file` */
    loadFile: string -> string,
    /** `util.find_freebsd_part` / `util.find_dragonflybsd_part` */
    bsdPartName: string -> string,
    /** `subp.subp(cmd)`, run with `LANG=C` */
    run: Cmd -> Completion,
    /** `get_size(partdev)` before the resize command runs */
    sizeBefore: string -> nat,
    /** `get_size(partdev)` after the resize command has run */
    sizeAfter: string -> nat
  )

  predicate ExitedWith(c: Completion, code: int) {
    c.Exited? && c.code == code
  }

  /** `subp.subp` with the default accepted return codes `[0]` returns normally. */
  predicate Succeeded(c: Completion) {
    ExitedWith(c, 0)
  }
}

/** The two resize back ends (`ResizeGrowPart`, `ResizeGpart`) and their command
    protocols. */
module Resizers {
  import opened PyValues
  import opened Text
  import opened GrowpartHost

  datatype Resizer = GrowPart | Gpart {
    /** The diagnostic command `available()` runs. */
    function ProbeCmd(): Cmd {
      match this
      case GrowPart => ["growpart", "--help"]
      case Gpart => ["gpart", "help"]
    }
  }

  /** The fixed, ordered registry of back ends (`RESIZERS`). */
  const Registry: seq<(string, Resizer)> := [("growpart", GrowPart), ("gpart", Gpart)]

  /** `re.search(r"--update\s+", out)` */
  predicate HasUpdateOption(out: string)
    decreases |out|
  {
    (StartsWith(out, "--update") && |out| > 8 && IsSpace(out[8]))
    || (|out| > 0 && HasUpdateOption(out[1..]))
  }

  /** Position `k` of `out` reads `--update` followed by a whitespace character. */
  predicate UpdateOptionAt(out: string, k: int) {
    0 <= k && k + 9 <= |out| && out[k..k + 8] == "--update" && IsSpace(out[k + 8])
  }

  lemma UpdateOptionAtShift(out: string, k: nat)
    requires |out| > 0
    ensures UpdateOptionAt(out[1..], k) <==> UpdateOptionAt(out, k + 1)
  {
    if k + 9 <= |out[1..]| {
      assert out[1..][k..k + 8] == out[k + 1..k + 1 + 8];
      assert out[1..][k + 8] == out[k + 1 + 8];
    }
  }

  /** The search agrees with the positional reading of the pattern: some position
      holds `--update` followed by a whitespace character. */
  lemma {:induction false} UpdateOptionSearch(out: string)
    ensures HasUpdateOption(out) <==> exists k :: UpdateOptionAt(out, k)
    decreases |out|
  {
    if |out| > 0 {
      UpdateOptionSearch(out[1..]);
      if StartsWith(out, "--update") && |out| > 8 && IsSpace(out[8]) {
        assert UpdateOptionAt(out, 0);
      } else if HasUpdateOption(out) {
        var k :| UpdateOptionAt(out[1..], k);
        UpdateOptionAtShift(out, k);
      }
      if exists k :: UpdateOptionAt(out, k) {
        var k :| UpdateOptionAt(out, k);
        if k == 0 {
          assert StartsWith(out, "--update");
        } else {
          UpdateOptionAtShift(out, k - 1);
        }
      }
    }
  }

  /** `available()`: the help text of the tool shows the capability the resize
      needs. `gpart help` is accepted with exit code 0 or 1 and searched on stderr,
      `growpart --help` only with exit code 0 and searched on stdout. A probe that
      cannot run, or fails, makes the back end unavailable rather than raising. */
  function Available(r: Resizer, sys: System): (ok: bool)
    ensures ok ==> sys.run(r.ProbeCmd()).Exited?
    ensures r == GrowPart ==>
      (ok <==> ExitedWith(sys.run(r.ProbeCmd()), 0) && HasUpdateOption(sys.run(r.ProbeCmd()).out))
    ensures r == Gpart ==>
      (ok <==> (ExitedWith(sys.run(r.ProbeCmd()), 0) || ExitedWith(sys.run(r.ProbeCmd()), 1))
               && Contains(sys.run(r.ProbeCmd()).err, "gpart recover "))
  {
    var c := sys.run(r.ProbeCmd());
    match r
    case GrowPart => Succeeded(c) && HasUpdateOption(c.out)
    case Gpart => c.Exited? && c.code in {0, 1} && Contains(c.err, "gpart recover ")
  }

  /** `ResizeFailedException`: the command that failed and how it ended. */
  datatype ResizeFailure = ResizeFailure(cmd: Cmd, completion: Completion)

  /** The outcome of `resize(diskdev, partnum, partdev)`, `(before, after)` sizes or
      the failure, together with the commands issued, in order. */
  datatype ResizeRun = ResizeRun(result: Result<(nat, nat), ResizeFailure>, issued: seq<Cmd>)

  function DryRunCmd(disk: string, ptnum: string): Cmd { ["growpart", "--dry-run", disk, ptnum] }
  function GrowCmd(disk: string, ptnum: string): Cmd { ["growpart", disk, ptnum] }
  function RecoverCmd(disk: string): Cmd { ["gpart", "recover", disk] }
  function GpartResizeCmd(disk: string, ptnum: string): Cmd { ["gpart", "resize", "-i", ptnum, disk] }

  /** `ResizeGrowPart.resize`: a dry run first; exit code 1 of the dry run means
      "nothing to grow", any other failure is fatal; only after a successful dry run
      is the partition grown for real. */
  function GrowPartResize(sys: System, disk: string, ptnum: string, partdev: string): (run: ResizeRun)
    ensures |run.issued| >= 1 && run.issued[0] == DryRunCmd(disk, ptnum)
    ensures GrowCmd(disk, ptnum) in run.issued <==> Succeeded(sys.run(DryRunCmd(disk, ptnum)))
    ensures ExitedWith(sys.run(DryRunCmd(disk, ptnum)), 1)
            ==> run == ResizeRun(Ok((sys.sizeBefore(partdev), sys.sizeBefore(partdev))), [DryRunCmd(disk, ptnum)])
    ensures run.result.Err? ==> run.result.error.cmd == run.issued[|run.issued| - 1]
                                && !Succeeded(run.result.error.completion)
                                && run.result.error.completion == sys.run(run.result.error.cmd)
    ensures run.result.Ok? ==> run.result.value.0 == sys.sizeBefore(partdev)
    ensures !Succeeded(sys.run(DryRunCmd(disk, ptnum))) && !ExitedWith(sys.run(DryRunCmd(disk, ptnum)), 1)
            ==> run.result == Err(ResizeFailure(DryRunCmd(disk, ptnum), sys.run(DryRunCmd(disk, ptnum))))
    ensures Succeeded(sys.run(DryRunCmd(disk, ptnum))) ==>
      && (run.result.Err? <==> !Succeeded(sys.run(GrowCmd(disk, ptnum))))
      && (run.result.Ok? ==> run.result.value == (sys.sizeBefore(partdev), sys.sizeAfter(partdev)))
    ensures run.issued == (if Succeeded(sys.run(DryRunCmd(disk, ptnum))) then [DryRunCmd(disk, ptnum), GrowCmd(disk, ptnum)]
                           else [DryRunCmd(disk, ptnum)])
  {
    var before := sys.sizeBefore(partdev);
    var dry := sys.run(DryRunCmd(disk, ptnum));
    if !Succeeded(dry) then
      if ExitedWith(dry, 1) then ResizeRun(Ok((before, before)), [DryRunCmd(disk, ptnum)])
      else ResizeRun(Err(ResizeFailure(DryRunCmd(disk, ptnum), dry)), [DryRunCmd(disk, ptnum)])
    else
      var grow := sys.run(GrowCmd(disk, ptnum));
      var issued := [DryRunCmd(disk, ptnum), GrowCmd(disk, ptnum)];
      if !Succeeded(grow) then ResizeRun(Err(ResizeFailure(GrowCmd(disk, ptnum), grow)), issued)
      else ResizeRun(Ok((before, sys.sizeAfter(partdev))), issued)
  }

  /** `ResizeGpart.resize`: recover the GPT backup metadata, then resize the
      partition; either command failing is fatal, and a failed recovery stops
      before the resize command. */
  function GpartResize(sys: System, disk: string, ptnum: string, partdev: string): (run: ResizeRun)
    ensures |run.issued| >= 1 && run.issued[0] == RecoverCmd(disk)
    ensures GpartResizeCmd(disk, ptnum) in run.issued <==> Succeeded(sys.run(RecoverCmd(disk)))
    ensures run.result.Err? ==> run.result.error.cmd == run.issued[|run.issued| - 1]
                                && !Succeeded(run.result.error.completion)
                                && run.result.error.completion == sys.run(run.result.error.cmd)
    ensures run.result.Ok? ==> run == ResizeRun(Ok((sys.sizeBefore(partdev), sys.sizeAfter(partdev))),
                                                [RecoverCmd(disk), GpartResizeCmd(disk, ptnum)])
    ensures run.result.Ok? <==> Succeeded(sys.run(RecoverCmd(disk))) && Succeeded(sys.run(GpartResizeCmd(disk, ptnum)))
    ensures run.issued == (if Succeeded(sys.run(RecoverCmd(disk))) then [RecoverCmd(disk), GpartResizeCmd(disk, ptnum)]
                           else [RecoverCmd(disk)])
  {
    var recover := sys.run(RecoverCmd(disk));
    if !Succeeded(recover) then ResizeRun(Err(ResizeFailure(RecoverCmd(disk), recover)), [RecoverCmd(disk)])
    else
      var before := sys.sizeBefore(partdev);
      var resize := sys.run(GpartResizeCmd(disk, ptnum));
      var issued := [RecoverCmd(disk), GpartResizeCmd(disk, ptnum)];
      if !Succeeded(resize) then ResizeRun(Err(ResizeFailure(GpartResizeCmd(disk, ptnum), resize)), issued)
      else ResizeRun(Ok((before, sys.sizeAfter(partdev))), issued)
  }

  /** `resizer.resize(disk, ptnum, blockdev)` for the selected back end. */
  function Resize(r: Resizer, sys: System, disk: string, ptnum: string, partdev: string): ResizeRun {
    match r
    case GrowPart => GrowPartResize(sys, disk, ptnum, partdev)
    case Gpart => GpartResize(sys, disk, ptnum, partdev)
  }
}

/** `resizer_factory`: choosing the back end by name or, in `auto` mode, by probing
    the registry in order. */
module ResizerSelection {
  import opened PyValues
  import opened Resizers

  /** `r` is the first back end of `table` that `avail` accepts. */
  ghost predicate IsFirstAvailable(table: seq<(string, Resizer)>, avail: Resizer -> bool, r: Resizer) {
    exists i :: 0 <= i < |table| && table[i].1 == r && avail(r)
      && forall j :: 0 <= j < i ==> !avail(table[j].1)
  }

  ghost predicate AnyAvailable(table: seq<(string, Resizer)>, avail: Resizer -> bool) {
    exists i :: 0 <= i < |table| && avail(table[i].1)
  }

  /** The loop over `RESIZERS` in `auto` mode. */
  function FirstAvailable(table: seq<(string, Resizer)>, avail: Resizer -> bool): (r: Option<Resizer>)
    ensures r.Some? <==> AnyAvailable(table, avail)
    ensures r.Some? ==> IsFirstAvailable(table, avail, r.value)
  {
    if |table| == 0 then None
    else if avail(table[0].1) then
      assert IsFirstAvailable(table, avail, table[0].1) by { assert table[0].1 == table[0].1; }
      Some(table[0].1)
    else
      var rest := FirstAvailable(table[1..], avail);
      assert AnyAvailable(table, avail) ==> AnyAvailable(table[1..], avail) by {
        if AnyAvailable(table, avail) {
          var i :| 0 <= i < |table| && avail(table[i].1);
          assert i > 0 && table[1..][i - 1] == table[i];
        }
      }
      assert rest.Some? ==> IsFirstAvailable(table, avail, rest.value) by {
        if rest.Some? {
          var i :| 0 <= i < |table[1..]| && table[1..][i].1 == rest.value && avail(rest.value)
                   && forall j :: 0 <= j < i ==> !avail(table[1..][j].1);
          assert table[i + 1].1 == rest.value;
          assert forall j :: 0 <= j < i + 1 ==> !avail(table[j].1) by {
            forall j | 0 <= j < i + 1 ensures !avail(table[j].1) {
              if j > 0 { assert table[j] == table[1..][j - 1]; }
            }
          }
        }
      }
      rest
  }

  /** The dictionary `mmap` built from the registry: later duplicates win. */
  function Lookup(table: seq<(string, Resizer)>, name: string): (r: Option<Resizer>)
    ensures r.Some? <==> exists i :: 0 <= i < |table| && table[i].0 == name
    ensures r.Some? ==> exists i :: 0 <= i < |table| && table[i] == (name, r.value)
  {
    if |table| == 0 then None
    else
      var rest := Lookup(table[1..], name);
      assert forall i :: 0 < i < |table| ==> table[i] == table[1..][i - 1];
      if rest.Some? then rest
      else if table[0].0 == name then Some(table[0].1)
      else None
  }

  /** `mode` names a registered back end (only a string can equal a registry key). */
  function ModeLookup(mode: Value): Option<Resizer> {
    if mode.PyStr? then Lookup(Registry, mode.s) else None
  }

  const Auto: Value := PyStr("auto")

  /** `resizer_factory(mode)`: in `auto` mode the first available back end in
      registry order, `ValueError` when there is none; otherwise the named back end,
      `TypeError` when the name is unknown and `ValueError` when it is unavailable.
      The result is never an unavailable back end. */
  function ResizerFactory(mode: Value, avail: Resizer -> bool): (r: Result<Resizer, Exc>)
    ensures r.Ok? ==> avail(r.value)
    ensures mode == Auto ==> (r.Ok? <==> AnyAvailable(Registry, avail))
    ensures mode == Auto && r.Ok? ==> IsFirstAvailable(Registry, avail, r.value)
    ensures mode == Auto && r.Err? ==> r.error.ValueError?
    ensures mode != Auto && (forall i :: 0 <= i < |Registry| ==> mode != PyStr(Registry[i].0))
            ==> r.Err? && r.error.TypeError?
    ensures forall i :: 0 <= i < |Registry| && mode == PyStr(Registry[i].0) ==>
              && (avail(Registry[i].1) ==> r == Ok(Registry[i].1))
              && (!avail(Registry[i].1) ==> r.Err? && r.error.ValueError?)
  {
    if mode == Auto then
      match FirstAvailable(Registry, avail)
      case Some(x) => Ok(x)
      case None => Err(ValueError("No resizers available"))
    else
      match ModeLookup(mode)
      case None => Err(TypeError("unknown resize mode " + Render(mode)))
      case Some(x) =>
        if avail(x) then Ok(x) else Err(ValueError("mode " + Render(mode) + " not available"))
  }
}

=== FILE: outcomes.dfy ===
/** The Python runtime values the modelled code handles: optional values, results,
    the exceptions it raises or catches, and configuration scalars. */
module PyValues {

  /** Python's `None` versus a present value. */
  datatype Option<+T> = None | Some(value: T) {
    /** The value, or `default` when absent (the `dict.get(key, default)` idiom). */
    function GetOr(default: T): T {
      match this
      case Some(v) => v
      case None => default
    }
  }

  /** A value or the exception raised instead of it. */
  datatype Result<+T, +E> = Ok(value: T) | Err(error: E)

  /** The built-in exception kinds whose handling the modelled code distinguishes. */
  datatype Exc =
    | ValueError(msg: string)
    | TypeError(msg: string)
    | AttributeError(msg: string)

  /** A scalar as it can appear in parsed YAML configuration. */
  datatype Value = PyNone | PyBool(b: bool) | PyInt(i: int) | PyStr(s: string)

  predicate IsDecimalDigit(c: char) {
    '0' <= c <= '9'
  }

  /** The number a string of decimal digits denotes, read most significant first. */
  function DecimalValue(r: string): nat
    requires forall k :: 0 <= k < |r| ==> IsDecimalDigit(r[k])
  {
    if |r| == 0 then 0
    else
      assert IsDecimalDigit(r[|r| - 1]);
      DecimalValue(r[..|r| - 1]) * 10 + (r[|r| - 1] as int - '0' as int)
  }

  /** Decimal digits of a natural number, as `str(n)` writes them: digits only, no
      leading zero, and they denote `n`. */
  function NatToDecimal(n: nat): (r: string)
    ensures |r| >= 1
    ensures forall k :: 0 <= k < |r| ==> IsDecimalDigit(r[k])
    ensures n < 10 <==> |r| == 1
    ensures |r| > 1 ==> r[0] != '0'
    ensures DecimalValue(r) == n
  {
    if n < 10 then
      var r := [(n + '0' as int) as char];
      assert r[..0] == [];
      r
    else
      var init := NatToDecimal(n / 10);
      var r := init + [((n % 10) + '0' as int) as char];
      assert r[..|r| - 1] == init;
      r
  }

  /** `"%s" % v`: how Python renders a scalar inside a message. */
  function Render(v: Value): string {
    match v
    case PyNone => "None"
    case PyBool(b) => if b then "True" else "False"
    case PyInt(i) => if i < 0 then "-" + NatToDecimal(-i) else NatToDecimal(i)
    case PyStr(s) => s
  }
}

=== FILE: scaleway_keys.dfy ===
/** The parts of the Scaleway metadata document the datasource reads. */
module ScalewayMetadata {
  import opened PyValues

  /** An element of `ssh_public_keys`; only its `key` field is used. */
  datatype SshKeyEntry = SshKeyEntry(key: string)

  /** The `ipv6` entry: absent, present but false-ish (`null`, `{}`), or a mapping
      with an address, a gateway and a netmask. */
  datatype Ipv6Field = NoIpv6 | FalsyIpv6 | Ipv6(address: string, gateway: string, netmask: string)

  datatype Metadata = Metadata(sshPublicKeys: seq<SshKeyEntry>, tags: Option<seq<string>>, ipv6: Ipv6Field) {
    /** `metadata.get("tags", [])` */
    function Tags(): seq<string> {
      tags.GetOr([])
    }
  }
}

/** `get_public_ssh_keys`: the `key` of every `ssh_public_keys` entry, followed by one
    key per `AUTHORIZED_KEY=` tag. */
module ScalewayKeys {
  import opened PyValues
  import opened Text
  import opened ScalewayMetadata

  const AuthorizedKeyPrefix := "AUTHORIZED_KEY="

  /** `len(akeypre)` */
  const PrefixLength := |AuthorizedKeyPrefix|

  /** The tags that start with the `AUTHORIZED_KEY=` prefix, in order. */
  function MatchingTags(tags: seq<string>): (m: seq<string>)
    ensures |m| <= |tags|
    ensures forall j :: 0 <= j < |m| ==> StartsWith(m[j], AuthorizedKeyPrefix)
  {
    if |tags| == 0 then []
    else
      var last := tags[|tags| - 1];
      MatchingTags(tags[..|tags| - 1]) + (if StartsWith(last, AuthorizedKeyPrefix) then [last] else [])
  }

  /** Python's clamping of a slice bound to the length of the string. */
  function Clamp(n: nat, s: string): nat {
    if n <= |s| then n else |s|
  }

  /** The element a matching tag contributes, as written: `tag[:plen]`, the prefix
      itself, with `_` replaced by a space. */
  function TagKeyAsWritten(tag: string): string {
    ReplaceChar(tag[..Clamp(PrefixLength, tag)], '_', ' ')
  }

  /** The element evidently intended: `tag[plen:]`, the text after the prefix, with
      `_` replaced by a space. */
  function TagKeyIntended(tag: string): string {
    ReplaceChar(tag[Clamp(PrefixLength, tag)..], '_', ' ')
  }

  /** The loop of `get_public_ssh_keys`, for a given way `tagKey` of turning a
      matching tag into a key. */
  method CollectKeys(md: Metadata, tagKey: string -> string) returns (keys: seq<string>)
    ensures |keys| == |md.sshPublicKeys| + |MatchingTags(md.Tags())|
    ensures forall i :: 0 <= i < |md.sshPublicKeys| ==> keys[i] == md.sshPublicKeys[i].key
    ensures forall j :: 0 <= j < |MatchingTags(md.Tags())| ==>
      keys[|md.sshPublicKeys| + j] == tagKey(MatchingTags(md.Tags())[j])
  {
    keys := seq(|md.sshPublicKeys|, i requires 0 <= i < |md.sshPublicKeys| => md.sshPublicKeys[i].key);
    var tags := md.Tags();
    var n := 0;
    while n < |tags|
      invariant 0 <= n <= |tags|
      invariant |keys| == |md.sshPublicKeys| + |MatchingTags(tags[..n])|
      invariant forall i :: 0 <= i < |md.sshPublicKeys| ==> keys[i] == md.sshPublicKeys[i].key
      invariant forall j :: 0 <= j < |MatchingTags(tags[..n])| ==>
        keys[|md.sshPublicKeys| + j] == tagKey(MatchingTags(tags[..n])[j])
    {
      assert tags[..n + 1][..n] == tags[..n];
      var tag := tags[n];
      if StartsWith(tag, AuthorizedKeyPrefix) {
        keys := keys + [tagKey(tag)];
      }
      n := n + 1;
    }
    assert tags[..n] == tags;
  }

  /** `get_public_ssh_keys()` as written: one element per `ssh_public_keys` entry,
      its `key`, in order, then one element per matching tag, which is always the
      constant `"AUTHORIZED KEY="`. */
  method GetPublicSshKeys(md: Metadata) returns (keys: seq<string>)
    ensures |keys| == |md.sshPublicKeys| + |MatchingTags(md.Tags())|
    ensures forall i :: 0 <= i < |md.sshPublicKeys| ==> keys[i] == md.sshPublicKeys[i].key
    ensures forall j :: |md.sshPublicKeys| <= j < |keys| ==> keys[j] == "AUTHORIZED KEY="
  {
    keys := CollectKeys(md, TagKeyAsWritten);
    forall j | 0 <= j < |MatchingTags(md.Tags())|
      ensures TagKeyAsWritten(MatchingTags(md.Tags())[j]) == "AUTHORIZED KEY="
    {
      AsWrittenTagKeyIsConstant(MatchingTags(md.Tags())[j]);
    }
    forall j | |md.sshPublicKeys| <= j < |keys|
      ensures keys[j] == "AUTHORIZED KEY="
    {
      var k := j - |md.sshPublicKeys|;
      assert keys[|md.sshPublicKeys| + k] == TagKeyAsWritten(MatchingTags(md.Tags())[k]);
    }
  }

  /** The corrected `get_public_ssh_keys()`: matching tags contribute the key they
      carry after the prefix. */
  method GetPublicSshKeysIntended(md: Metadata) returns (keys: seq<string>)
    ensures |keys| == |md.sshPublicKeys| + |MatchingTags(md.Tags())|
    ensures forall i :: 0 <= i < |md.sshPublicKeys| ==> keys[i] == md.sshPublicKeys[i].key
    ensures forall j :: 0 <= j < |MatchingTags(md.Tags())| ==>
      var tag := MatchingTags(md.Tags())[j];
      PrefixLength <= |tag| && keys[|md.sshPublicKeys| + j] == ReplaceChar(tag[PrefixLength..], '_', ' ')
  {
    keys := CollectKeys(md, TagKeyIntended);
  }

  /** As written, every matching tag yields the same element, whatever key it
      carries. */
  lemma AsWrittenTagKeyIsConstant(tag: string)
    requires StartsWith(tag, AuthorizedKeyPrefix)
    ensures TagKeyAsWritten(tag) == "AUTHORIZED KEY="
  {
    assert tag[..Clamp(PrefixLength, tag)] == AuthorizedKeyPrefix;
    var r := ReplaceChar(AuthorizedKeyPrefix, '_', ' ');
    var expected := "AUTHORIZED KEY=";
    assert |r| == |expected|;
    forall i | 0 <= i < |r| ensures r[i] == expected[i] {
      assert r[i] == (if AuthorizedKeyPrefix[i] == '_' then ' ' else AuthorizedKeyPrefix[i]);
    }
  }

  /** A concrete tag whose key the as-written slice loses. */
  lemma AsWrittenLosesTaggedKey()
    ensures TagKeyAsWritten("AUTHORIZED_KEY=ssh-ed25519_AAAAC3") == "AUTHORIZED KEY="
    ensures TagKeyIntended("AUTHORIZED_KEY=ssh-ed25519_AAAAC3") == "ssh-ed25519 AAAAC3"
  {
    var tag := "AUTHORIZED_KEY=ssh-ed25519_AAAAC3";
    assert StartsWith(tag, AuthorizedKeyPrefix) by {
      assert tag[..PrefixLength] == AuthorizedKeyPrefix;
    }
    AsWrittenTagKeyIsConstant(tag);
    var r := TagKeyIntended(tag);
    assert tag[Clamp(PrefixLength, tag)..] == "ssh-ed25519_AAAAC3";
    assert forall i :: 0 <= i < |r| ==> r[i] == "ssh-ed25519 AAAAC3"[i];
  }

  /** The corrected slice recovers a key stored in a tag with its spaces written as
      underscores, which is how a key fits in a tag. */
  lemma TagKeyRoundTrip(key: string)
    requires forall i :: 0 <= i < |key| ==> key[i] != '_'
    ensures StartsWith(AuthorizedKeyPrefix + ReplaceChar(key, ' ', '_'), AuthorizedKeyPrefix)
    ensures TagKeyIntended(AuthorizedKeyPrefix + ReplaceChar(key, ' ', '_')) == key
  {
    var tag := AuthorizedKeyPrefix + ReplaceChar(key, ' ', '_');
    assert tag[..PrefixLength] == AuthorizedKeyPrefix;
    assert tag[PrefixLength..] == ReplaceChar(key, ' ', '_');
    ReplaceCharRoundTrip(key, ' ', '_');
  }

  /** Exactly the prefixed tags are selected: none is dropped, nothing else is kept. */
  lemma {:induction false} MatchingTagsMembers(tags: seq<string>)
    ensures forall t :: t in MatchingTags(tags) <==> t in tags && StartsWith(t, AuthorizedKeyPrefix)
    decreases |tags|
  {
    if |tags| > 0 {
      var init := tags[..|tags| - 1];
      MatchingTagsMembers(init);
      assert tags == init + [tags[|tags| - 1]];
    }
  }

  /** The selection keeps the order of the tags: selecting from two lists of tags one
      after the other is selecting from their concatenation. */
  lemma {:induction false} MatchingTagsConcat(a: seq<string>, b: seq<string>)
    ensures MatchingTags(a + b) == MatchingTags(a) + MatchingTags(b)
    decreases |b|
  {
    if |b| == 0 {
      assert a + b == a;
    } else {
      var ab := a + b;
      assert ab[..|ab| - 1] == a + b[..|b| - 1];
      assert ab[|ab| - 1] == b[|b| - 1];
      MatchingTagsConcat(a, b[..|b| - 1]);
    }
  }

  /** Tags without the prefix contribute nothing. */
  lemma {:induction false} UnprefixedTagsIgnored(tags: seq<string>)
    requires forall i :: 0 <= i < |tags| ==> !StartsWith(tags[i], AuthorizedKeyPrefix)
    ensures MatchingTags(tags) == []
  {
    if |tags| > 0 {
      UnprefixedTagsIgnored(tags[..|tags| - 1]);
    }
  }
}

=== FILE: scaleway_network.dfy ===
/** The `network_config` property of the Scaleway datasource and its cache. */
module ScalewayNetwork {
  import opened PyValues
  import opened ScalewayMetadata

  datatype Subnet = Dhcp4 | Static(address: string, gateway: string, netmask: string)

  /** `{"type": "physical", "name": ..., "subnets": [...]}` */
  datatype PhysicalInterface = Physical(name: string, subnets: seq<Subnet>)

  /** `{"version": ..., "config": [...]}` */
  datatype NetworkConfig = NetworkConfig(version: int, config: seq<PhysicalInterface>)

  /** The `_network_config` attribute: the `UNSET` sentinel, `None`, or a computed
      configuration. */
  datatype NetworkCache = Unset | CachedNone | Cached(value: NetworkConfig)

  /** The datasource attributes `network_config` reads and writes. */
  datatype DatasourceState = DatasourceState(networkConfig: NetworkCache, fallbackInterface: Option<string>)

  /** `"%s" % self._fallback_interface` */
  function InterfaceName(iface: Option<string>): string {
    match iface
    case Some(name) => name
    case None => "None"
  }

  /** A configuration of version 1 with a single physical interface named `name`,
      which always has a DHCPv4 subnet. */
  ghost predicate WellFormed(c: NetworkConfig, name: string) {
    && c.version == 1
    && |c.config| == 1
    && c.config[0].name == name
    && |c.config[0].subnets| >= 1
    && c.config[0].subnets[0] == Dhcp4
  }

  /** The configuration built from metadata: DHCPv4 first, then a static IPv6
      subnet copied from the metadata exactly when `ipv6` is present and truthy. */
  function BuildNetworkConfig(iface: Option<string>, ipv6: Ipv6Field): (c: NetworkConfig)
    ensures WellFormed(c, InterfaceName(iface))
    ensures |c.config[0].subnets| == 2 <==> ipv6.Ipv6?
    ensures |c.config[0].subnets| <= 2
    ensures ipv6.Ipv6? ==> c.config[0].subnets[1] == Static(ipv6.address, ipv6.gateway, ipv6.netmask)
  {
    var subnets := [Dhcp4] + (if ipv6.Ipv6? then [Static(ipv6.address, ipv6.gateway, ipv6.netmask)] else []);
    NetworkConfig(1, [Physical(InterfaceName(iface), subnets)])
  }

  /** Reading `network_config`. A cached configuration is returned as is; a cached
      `None` is reset to `UNSET`; otherwise the fallback interface is looked up if
      unknown (`discovered` is what `get_first_connected_interface()` returns),
      the configuration is built from `metadata` and stored in the cache. */
  function ReadNetworkConfig(st: DatasourceState, metadata: Metadata, discovered: Option<string>)
    : (r: (NetworkConfig, DatasourceState))
    ensures st.networkConfig.Cached? ==> r == (st.networkConfig.value, st)
    ensures !st.networkConfig.Cached? ==>
      var iface := if st.fallbackInterface.Some? then st.fallbackInterface else discovered;
      && r.1 == DatasourceState(Cached(r.0), iface)
      && WellFormed(r.0, InterfaceName(iface))
      && (|r.0.config[0].subnets| == 2 <==> metadata.ipv6.Ipv6?)
      && r.0 == BuildNetworkConfig(iface, metadata.ipv6)
  {
    var cache := if st.networkConfig.CachedNone? then Unset else st.networkConfig;
    if cache != Unset then (cache.value, st)
    else
      var iface := if st.fallbackInterface.None? then discovered else st.fallbackInterface;
      var netcfg := BuildNetworkConfig(iface, metadata.ipv6);
      (netcfg, DatasourceState(Cached(netcfg), iface))
  }

  /** Once computed, the configuration no longer depends on the metadata or the
      interfaces: a second read returns the first read's value and state. */
  lemma CachedConfigIsStable(st: DatasourceState, md1: Metadata, d1: Option<string>, md2: Metadata, d2: Option<string>)
    ensures var (c1, st1) := ReadNetworkConfig(st, md1, d1);
      ReadNetworkConfig(st1, md2, d2) == (c1, st1)
  {
  }

  /** A cached `None` behaves exactly like an unset cache. */
  lemma CachedNoneIsRecomputed(fallback: Option<string>, md: Metadata, d: Option<string>)
    ensures ReadNetworkConfig(DatasourceState(CachedNone, fallback), md, d)
         == ReadNetworkConfig(DatasourceState(Unset, fallback), md, d)
  {
  }
}

=== FILE: scaleway_query.dfy ===
/** Fetching user and vendor data: `query_data_api_once` and the source-port retry
    loop of `query_data_api`. */
module ScalewayQuery {
  import opened PyValues

  /** `url_helper.UrlError`: the HTTP status code when there was a response. */
  datatype UrlError = UrlError(code: Option<int>, reason: string)

  /** What `url_helper.readurl` does for one request: decoded contents, or a raised
      `UrlError`. */
  datatype Response = Contents(body: string) | Raised(error: UrlError)

  predicate IsNotFound(e: UrlError) {
    e.code == Some(404)
  }

  /** `query_data_api_once`: HTTP 404 means the data is not set and yields `None`;
      every other error is raised again. */
  function QueryOnce(resp: Response): (r: Result<Option<string>, UrlError>)
    ensures r == Ok(None) <==> resp.Raised? && IsNotFound(resp.error)
    ensures r.Err? <==> resp.Raised? && !IsNotFound(resp.error)
    ensures r.Err? ==> r.error == resp.error
    ensures resp.Contents? ==> r == Ok(Some(resp.body))
  {
    match resp
    case Contents(body) => Ok(Some(body))
    case Raised(e) => if IsNotFound(e) then Ok(None) else Err(e)
  }

  /** The number of source ports `range(1, max(retries, 2))` offers. */
  function PortCount(retries: int): (n: nat)
    ensures n >= 1
    ensures retries >= 2 ==> n == retries - 1
    ensures retries < 2 ==> n == 1
  {
    if retries < 2 then 1 else retries - 1
  }

  /** `query_data_api`: tries source ports 1, 2, ... in ascending order and returns
      the outcome of the first attempt that does not raise; when every port raises,
      the error of the last attempt is raised. `attempt(port)` is what a request
      bound to source port `port` gets; `ports` lists the ports tried. */
  method QueryDataApi(retries: int, attempt: nat -> Response) returns (r: Result<Option<string>, UrlError>, ports: seq<nat>)
    ensures 1 <= |ports| <= PortCount(retries)
    ensures forall k :: 0 <= k < |ports| ==> ports[k] == k + 1
    ensures forall k :: 0 <= k < |ports| - 1 ==> QueryOnce(attempt(ports[k])).Err?
    ensures r == QueryOnce(attempt(ports[|ports| - 1]))
    ensures r.Err? ==> |ports| == PortCount(retries)
  {
    var port := 1;
    ports := [];
    var lastErr := UrlError(None, "");
    while port < PortCount(retries) + 1
      invariant 1 <= port <= PortCount(retries) + 1
      invariant |ports| == port - 1
      invariant forall k :: 0 <= k < |ports| ==> ports[k] == k + 1
      invariant forall k :: 0 <= k < |ports| ==> QueryOnce(attempt(ports[k])).Err?
      invariant |ports| > 0 ==> QueryOnce(attempt(ports[|ports| - 1])) == Err(lastErr)
    {
      ports := ports + [port];
      var once := QueryOnce(attempt(port));
      if once.Ok? {
        return once, ports;
      }
      lastErr := once.error;
      port := port + 1;
    }
    r := Err(lastErr);
  }
}

=== FILE: scaleway_settings.dfy ===
/** The addresses, headers and retry settings `DataSourceScaleway.__init__` derives
    from the datasource configuration. */
module ScalewaySettings {
  import opened PyValues
  import opened Text

  const DsBaseUrl := "http://169.254.42.42"
  const AuthTokenHeader := "X-Metadata-Auth-Token"
  const DefMdRetries := 5
  const DefMdTimeout := 10

  const MetadataSuffix := "/conf?format=json"
  const UserdataSuffix := "/user_data/cloud-init"
  const VendordataSuffix := "/vendor_data/cloud-init"

  /** The URLs of `BUILTIN_DS_CONFIG`. */
  const BuiltinMetadataUrl := DsBaseUrl + MetadataSuffix
  const BuiltinUserdataUrl := DsBaseUrl + UserdataSuffix
  const BuiltinVendordataUrl := DsBaseUrl + VendordataSuffix

  /** The merged `ds_cfg`. The `*_url` keys come from `BUILTIN_DS_CONFIG` unless
      the system configuration sets them. */
  datatype DsConfig = DsConfig(
    customMetadataUrl: Option<string>,
    customUserdataUrl: Option<string>,
    customVendordataUrl: Option<string>,
    baseUrl: Option<string>,
    token: Option<string>,
    retries: Option<int>,
    timeout: Option<int>,
    metadataUrl: Option<string>,
    userdataUrl: Option<string>,
    vendordataUrl: Option<string>)

  /** A system configuration without a `datasource.Scaleway` entry, after the merge. */
  const BuiltinOnly := DsConfig(None, None, None, None, None, None, None,
                                Some(BuiltinMetadataUrl), Some(BuiltinUserdataUrl), Some(BuiltinVendordataUrl))

  datatype Settings = Settings(
    metadataAddress: string,
    userdataAddress: string,
    vendordataAddress: string,
    headers: Option<map<string, string>>,
    headersRedact: Option<string>,
    retries: int,
    timeout: int)

  /** `ds_cfg.get(custom_key, "{base_url}<suffix>".format(base_url=ds_cfg.get("base_url", DS_BASE_URL)))` */
  function Address(custom: Option<string>, baseUrl: Option<string>, suffix: string): (a: string)
    ensures custom.Some? ==> a == custom.value
    ensures custom.None? ==> a == baseUrl.GetOr(DsBaseUrl) + suffix
  {
    custom.GetOr(baseUrl.GetOr(DsBaseUrl) + suffix)
  }

  /** The attributes `__init__` sets: each address is its `custom_*_url` when set and
      otherwise the base URL followed by the fixed path; a token sets both the
      header dictionary and the name to redact in logs; retries and timeout default
      to 5 and 10. */
  function DeriveSettings(cfg: DsConfig): (s: Settings)
    ensures s.headers.Some? <==> cfg.token.Some?
    ensures s.headersRedact.Some? <==> cfg.token.Some?
    ensures cfg.token.Some? ==>
      s.headers.value == map[AuthTokenHeader := cfg.token.value] && s.headersRedact.value == AuthTokenHeader
    ensures s.retries == cfg.retries.GetOr(DefMdRetries) && s.timeout == cfg.timeout.GetOr(DefMdTimeout)
    ensures s.metadataAddress == Address(cfg.customMetadataUrl, cfg.baseUrl, MetadataSuffix)
    ensures s.userdataAddress == Address(cfg.customUserdataUrl, cfg.baseUrl, UserdataSuffix)
    ensures s.vendordataAddress == Address(cfg.customVendordataUrl, cfg.baseUrl, VendordataSuffix)
  {
    Settings(
      Address(cfg.customMetadataUrl, cfg.baseUrl, MetadataSuffix),
      Address(cfg.customUserdataUrl, cfg.baseUrl, UserdataSuffix),
      Address(cfg.customVendordataUrl, cfg.baseUrl, VendordataSuffix),
      if cfg.token.Some? then Some(map[AuthTokenHeader := cfg.token.value]) else None,
      if cfg.token.Some? then Some(AuthTokenHeader) else None,
      cfg.retries.GetOr(DefMdRetries),
      cfg.timeout.GetOr(DefMdTimeout))
  }

  /** Without any Scaleway configuration the derived addresses are the built-in
      URLs, with no token header, 5 retries and a 10 second timeout. */
  lemma DefaultsMatchBuiltinUrls()
    ensures DeriveSettings(BuiltinOnly)
         == Settings(BuiltinMetadataUrl, BuiltinUserdataUrl, BuiltinVendordataUrl, None, None, 5, 10)
  {
  }

  /** The `metadata_url`, `userdata_url` and `vendordata_url` keys are merged into
      the configuration but never read back: changing them changes nothing. */
  lemma UrlKeysAreIgnored(cfg: DsConfig, m: Option<string>, u: Option<string>, v: Option<string>)
    ensures DeriveSettings(cfg.(metadataUrl := m, userdataUrl := u, vendordataUrl := v)) == DeriveSettings(cfg)
  {
  }

  /** A derived address either is the custom URL or splits into the base URL and
      the fixed path, which identifies the endpoint. */
  lemma AddressSplitsIntoBaseAndPath(cfg: DsConfig)
    requires cfg.customMetadataUrl.None? && cfg.customUserdataUrl.None? && cfg.customVendordataUrl.None?
    ensures var s := DeriveSettings(cfg);
      var base := cfg.baseUrl.GetOr(DsBaseUrl);
      && StartsWith(s.metadataAddress, base) && s.metadataAddress[|base|..] == MetadataSuffix
      && StartsWith(s.userdataAddress, base) && s.userdataAddress[|base|..] == UserdataSuffix
      && StartsWith(s.vendordataAddress, base) && s.vendordataAddress[|base|..] == VendordataSuffix
  {
    var s := DeriveSettings(cfg);
    var base := cfg.baseUrl.GetOr(DsBaseUrl);
    assert s.metadataAddress == base + MetadataSuffix;
    assert s.userdataAddress == base + UserdataSuffix;
    assert s.vendordataAddress == base + VendordataSuffix;
    assert (base + MetadataSuffix)[..|base|] == base;
    assert (base + UserdataSuffix)[..|base|] == base;
    assert (base + VendordataSuffix)[..|base|] == base;
  }
}

=== FILE: text.dfy ===
/** The handful of Python `str` operations the modelled code relies on. */
module Text {

  /** `s.startswith(prefix)` */
  predicate StartsWith(s: string, prefix: string) {
    |prefix| <= |s| && s[..|prefix|] == prefix
  }

  /** `sub in s`, i.e. `re.search` of a pattern without metacharacters. */
  predicate Contains(s: string, sub: string)
    decreases |s|
  {
    StartsWith(s, sub) || (|s| > 0 && Contains(s[1..], sub))
  }

  /** Characters `str.isspace()` (and the regex class `\s`) accept, restricted to
      code points below 256. */
  predicate IsSpace(c: char) {
    c == ' ' || ('\t' <= c <= '\r') || ('\U{1C}' <= c <= '\U{1F}') || c == '\U{85}' || c == '\U{A0}'
  }

  /** `str.rstrip()` with no argument: drops trailing whitespace. */
  function Rstrip(s: string): (r: string)
    ensures |r| <= |s| && r == s[..|r|]
    ensures |r| > 0 ==> !IsSpace(r[|r| - 1])
    ensures forall i :: |r| <= i < |s| ==> IsSpace(s[i])
  {
    if |s| > 0 && IsSpace(s[|s| - 1]) then Rstrip(s[..|s| - 1]) else s
  }

  /** `s.rstrip(c)` for a single character `c`. */
  function RstripChar(s: string, c: char): (r: string)
    ensures |r| <= |s| && r == s[..|r|]
    ensures |r| > 0 ==> r[|r| - 1] != c
    ensures forall i :: |r| <= i < |s| ==> s[i] == c
  {
    if |s| > 0 && s[|s| - 1] == c then RstripChar(s[..|s| - 1], c) else s
  }

  /** `s.replace(a, b)` for one-character `a` and `b`. */
  function ReplaceChar(s: string, a: char, b: char): (r: string)
    ensures |r| == |s|
    ensures forall i :: 0 <= i < |s| ==> r[i] == (if s[i] == a then b else s[i])
  {
    seq(|s|, i requires 0 <= i < |s| => if s[i] == a then b else s[i])
  }

  /** Replacing `a` by `b` in a string that holds no `b` is undone by replacing `b` by `a`. */
  lemma ReplaceCharRoundTrip(s: string, a: char, b: char)
    requires forall i :: 0 <= i < |s| ==> s[i] != b
    ensures ReplaceChar(ReplaceChar(s, a, b), b, a) == s
  {
    var t := ReplaceChar(s, a, b);
    var u := ReplaceChar(t, b, a);
    assert forall i :: 0 <= i < |s| ==> u[i] == s[i] by {
      forall i | 0 <= i < |s|
        ensures u[i] == s[i]
      {
        if s[i] == a { assert t[i] == b; } else { assert t[i] == s[i]; }
      }
    }
  }
}

/** The `os.path` functions of a POSIX host, on `/`-separated strings. */
module PosixPath {
  import opened Text

  /** One past the position of the last `/` (`p.rfind("/") + 1`), 0 when there is none. */
  function AfterLastSlash(p: string): (i: nat)
    ensures i <= |p|
    ensures i > 0 ==> p[i - 1] == '/'
    ensures forall j :: i <= j < |p| ==> p[j] != '/'
  {
    if |p| == 0 then 0
    else if p[|p| - 1] == '/' then |p|
    else AfterLastSlash(p[..|p| - 1])
  }

  predicate AllSlashes(s: string) {
    forall k :: 0 <= k < |s| ==> s[k] == '/'
  }

  /** `os.path.basename(p)`: the text after the last `/`. */
  function Basename(p: string): string {
    p[AfterLastSlash(p)..]
  }

  /** `os.path.dirname(p)`: the text up to the last `/`, trailing slashes removed
      unless it consists of slashes only. */
  function Dirname(p: string): string {
    var head := p[..AfterLastSlash(p)];
    if |head| > 0 && !AllSlashes(head) then RstripChar(head, '/') else head
  }

  /** `os.path.join(a, b)` for two components. */
  function Join(a: string, b: string): string {
    if StartsWith(b, "/") then b
    else if |a| == 0 || a[|a| - 1] == '/' then a + b
    else a + "/" + b
  }

  lemma {:induction false} AfterLastSlashOfJoin(d: string, b: string)
    requires forall k :: 0 <= k < |b| ==> b[k] != '/'
    ensures AfterLastSlash(d + "/" + b) == |d| + 1
    decreases |b|
  {
    var p := d + "/" + b;
    if |b| == 0 {
      assert p[|p| - 1] == '/';
    } else {
      var b' := b[..|b| - 1];
      assert p[..|p| - 1] == d + "/" + b';
      AfterLastSlashOfJoin(d, b');
    }
  }

  /** Joining a directory that does not end in `/` with a slash-free name, and then
      splitting the result, gives back both parts. */
  lemma SplitJoin(d: string, b: string)
    requires |d| > 0 && d[|d| - 1] != '/'
    requires forall k :: 0 <= k < |b| ==> b[k] != '/'
    ensures Dirname(Join(d, b)) == d
    ensures Basename(Join(d, b)) == b
  {
    assert !StartsWith(b, "/") by {
      if |b| >= 1 { assert b[..1][0] != '/'; }
    }
    var p := d + "/" + b;
    assert Join(d, b) == p;
    AfterLastSlashOfJoin(d, b);
    var head := p[..|d| + 1];
    assert head == d + "/";
    assert !AllSlashes(head) by { assert head[|d| - 1] != '/'; }
    assert head[..|head| - 1] == d;
    assert RstripChar(head, '/') == RstripChar(d, '/');
    assert p[|d| + 1..] == b;
  }
}
